=== FILE: README.md ===
# Notebook data-analysis utilities, modelled in Dafny

`Notebooks/Utilities.py` is a set of helpers for exploring a pandas data frame
and for scraping two web pages. This project models the parts of it that are
plain logic once the libraries are taken away. It covers:

- the inspection helpers on a data frame: `registros_anidados`,
  `filas_duplicadas`, `registros_unicos`, `count_data_by_type` and the null
  and `"SD"` counts behind the two percentage reports;
- `convert_to_time` on a single value;
- the text side of `barrios_por_comuna`. This means the district range check,
  the `\b(?:name|name|...)\b` scan of a paragraph as `re.findall` runs it over
  the 48 neighbourhood names, and the Spanish enumeration "A, B y C" of the
  names found.

Modules:

- `Wrappers` (`wrappers.dfy`): `Option` and `Result`.
- `Text` (`text.dfy`): how an f-string writes a count in decimal, with the
  inverse reading; `str.join` and the one-character `str.split`; prefix and
  suffix tests.
- `Cells` (`cells.dfy`): a cell is a tagged union of the values a column holds.
  These are `None`, NaN, pandas' `NaT` and `NA`, `str`, `int`, `bool`,
  `float`, `date`, `datetime`, pandas' `Timestamp`, `time`, the unhashable containers (list, dict,
  set) and any other object, named by its class. The module
  also has Python's runtime classes with `isinstance`, the `%H:%M:%S` parse and
  `convert_to_time`.
- `Frame` (`frame.dfy`): a data frame is a sequence of named columns of equal
  length. This module holds the inspection helpers.
- `Barrios` (`barrios.dfy`): the neighbourhood scan and the sentence
  `barrios_por_comuna` returns.

The source has three inputs from outside, and they become parameters:

- The text of a cell after `astype(str)` is `render: Cell -> string`.
- Fetching a district page and taking the fourth paragraph of its content
  block is `paragraph: string -> string`. It maps the page URL to that text.
- The exceptions the helpers let through become `Failure` results:
  `KeyError(name)` for a missing column, `TypeError` when pandas has to hash a
  list, dict or set cell (`duplicated()` and `nunique()`). A repeated column
  name makes `data[columna]` a frame: `registros_anidados` then fails with
  `AttributeError` (a frame has no `.str`), `registros_unicos` with
  `ValueError` (the truth value of a series), and `count_data_by_type` with
  `IndexingError` (a mask indexed by column names).
- `convert_to_time` on `NaT` raises `ValueError`, because `NaT` is a datetime
  whose clock cannot be read; `Cells.ConvertToTime` returns `None` there.

Where the documentation and the code disagree, the model follows the code:

- The comment on `Notebooks/Utilities.py:57` says a value qualifies when it
  starts with `[`. The code tests for `[{`, and so does `Frame.LooksNested`.
- The docstring of `convert_to_time` says the result is `None` on failure. The
  code returns the value unchanged, and so does `Cells.ConvertToTime`.
- `count_data_by_type` uses `isinstance`, not exact type equality. So a `bool`
  counts as an `int` and a `datetime` as a `date` (`Frame.BoolCountsAsInt`).
  A datetime64 column hands `apply` pandas `Timestamp` values, which are
  instances of `pd.Timestamp`, `datetime` and `date` (`Frame.DatetimeColumnCount`).
- `registros_anidados` returns a list in column order, not a set.

## Model

| member | source | states |
|---|---|---|
| Text.NatToString | Notebooks/Utilities.py:87 | a count is written as a non-empty string of decimal digits with no leading zero unless it is 0 |
| Text.ParseNatToString | Notebooks/Utilities.py:87 | reading back the decimal text of a count gives the count, so the sentences report counts faithfully |
| Cells.IsInstance | Notebooks/Utilities.py:238 | every value is an instance of its own class and of `object`. The instances of `date` are exactly the dates, datetimes (pandas `Timestamp` included) and `NaT`; those of `datetime` exactly the datetimes and `NaT`; those of `pd.Timestamp` exactly the pandas timestamps, not `NaT`. Apart from these, only a `bool` (as an `int`) is an instance of another class |
| Cells.TypeName | Notebooks/Utilities.py:240 | `str` of a class is `<class '...'>` around the class's name, for another class exactly its name |
| Cells.ParseHMS | Notebooks/Utilities.py:177 | a successful `%H:%M:%S` parse yields a valid time with no microseconds, from a string of 5 to 8 characters made only of digits and colons |
| Cells.ParseHMSFields | Notebooks/Utilities.py:177 | the parse succeeds exactly when the string splits at its colons into three fields of one or two ASCII digits, the hour below 24 and the others below 60; the time is then made of those fields' values, so "1:2:3" gives 01:02:03 |
| Cells.ParseFormatTime | Notebooks/Utilities.py:177 | parsing the `HH:MM:SS` text of any whole-second time gives that time back |
| Cells.ConvertToTime | Notebooks/Utilities.py:175-182 | `NaT`, and only `NaT`, raises. Otherwise the result is the input or a time. A datetime or pandas `Timestamp` gives its clock part. A string that parses gives the parsed time and is returned unchanged exactly when it does not parse. Every other value, a plain date included, is returned unchanged. The result is null exactly when the input is null |
| Cells.ConvertToTimeIdempotent | Notebooks/Utilities.py:175-182 | converting a converted value again changes nothing |
| Cells.ConvertFormattedTime | Notebooks/Utilities.py:175-177 | a string spelling a valid time as `HH:MM:SS` converts to that time |
| Cells.ConvertToTimeExamples | Notebooks/Utilities.py:175-182 | "13:45:00" becomes 13:45:00; "not-a-time", 42 and a plain date come back unchanged; `NaT` raises; a `Timestamp` at 08:30 gives 08:30:00 |
| Frame.Lookup | Notebooks/Utilities.py:111 | `data[name]` finds the first column with that name, and reports none exactly when no column has it |
| Frame.LooksNestedCases | Notebooks/Utilities.py:57 | a rendered cell qualifies exactly when its first character is `{`, or its first two are `[{`. So `[1, 2]` does not qualify |
| Frame.RegistrosAnidados | Notebooks/Utilities.py:53-60 | a repeated column name is an `AttributeError`. Otherwise a name is in the result exactly when a column of that name has a cell whose text starts with `{` or `[{`, and the names come in strictly increasing column order, so none repeats |
| Frame.RegistrosAnidadosExample | Notebooks/Utilities.py:57 | with column `a` holding "{x:1}" and column `b` only "plain", the result is ["a"]; two columns called `a` fail |
| Frame.RowsBeforeMembers | Notebooks/Utilities.py:82 | the distinct rows among the first k are exactly the rows 0 to k - 1 |
| Frame.RepeatsBeforeDistinct | Notebooks/Utilities.py:82 | among the first k rows, the repeated rows plus the distinct rows make k |
| Frame.DuplicateCount | Notebooks/Utilities.py:82 | `duplicated().sum()` is the row count less the number of distinct rows. It is 0 for zero or one row and at most rows - 1 otherwise |
| Frame.RepeatsBeforeZero | Notebooks/Utilities.py:82-84 | the duplicate count is 0 exactly when no row equals an earlier row |
| Frame.ScanRows | Notebooks/Utilities.py:82 | a one-pass scan that remembers the rows seen counts exactly the rows equal to an earlier row |
| Frame.CountDuplicates | Notebooks/Utilities.py:82 | an unhashable cell anywhere is a `TypeError`. Otherwise a one-pass scan that remembers the rows seen returns the number of rows equal to an earlier row, which is the row count less the distinct rows |
| Frame.DuplicatesSentence | Notebooks/Utilities.py:84-87 | the sentence is the no-duplicates one exactly when the count is 0 |
| Frame.DuplicatesSentenceInjective | Notebooks/Utilities.py:84-87 | different counts give different sentences |
| Frame.FilasDuplicadas | Notebooks/Utilities.py:82-87 | an unhashable cell is a `TypeError`. Otherwise the sentence for the duplicate count, which is the no-duplicates sentence exactly when no row repeats an earlier one |
| Frame.NonNullValues | Notebooks/Utilities.py:111 | the distinct non-null values number at most the non-null cells, and none exactly when every cell is null |
| Frame.NonNullValuesMembers | Notebooks/Utilities.py:111 | the values counted by `nunique()` are exactly the non-null cells |
| Frame.UniqueExample | Notebooks/Utilities.py:111 | the values 1, 1, 2, None have two unique records |
| Frame.NUnique | Notebooks/Utilities.py:111 | an unhashable cell is a `TypeError`. Otherwise a one-pass scan returns the number of distinct non-null values, at most the non-null cells |
| Frame.UniqueSentence | Notebooks/Utilities.py:113-116 | the sentence is the "no tiene registros unicos" one exactly when the count is 0 |
| Frame.UniqueSentenceInjective | Notebooks/Utilities.py:113-116 | for one column, different counts give different sentences |
| Frame.RegistrosUnicos | Notebooks/Utilities.py:111-116 | a missing column is a `KeyError`. A repeated name is a `TypeError` when one of its columns holds an unhashable cell and a `ValueError` otherwise. For a single column an unhashable cell is a `TypeError`. Otherwise the sentence carries the distinct non-null count, and it is the "no tiene registros unicos" sentence exactly when the column is empty or all null |
| Frame.CountInstances | Notebooks/Utilities.py:238 | the `isinstance` count is at most the column length, and with `object` it is the column length |
| Frame.CountInstancesMonotone | Notebooks/Utilities.py:238 | the `isinstance` count is at least the exact-type count and grows from a class to its superclass |
| Frame.BoolCountsAsInt | Notebooks/Utilities.py:238 | a boolean cell counts under `int` although its exact type is not `int` |
| Frame.DatetimeColumnCount | Notebooks/Utilities.py:238 | on a column of `Timestamp` and `NaT` values, asking for `pd.Timestamp` counts the non-null rows and asking for `datetime` counts every row |
| Frame.CountMatching | Notebooks/Utilities.py:238 | a one-pass scan returns the number of cells that are instances of the type, between 0 and the column length |
| Frame.CountByTypeSentence | Notebooks/Utilities.py:240 | the sentence ends with the text of the class asked about |
| Frame.CountByTypeSentenceInjective | Notebooks/Utilities.py:240 | for one column and class, different counts give different sentences |
| Frame.CountDataByType | Notebooks/Utilities.py:238-240 | a missing column is a `KeyError`. A repeated name is an `IndexingError` when the frame has rows, and a count of 0 when it has none. Otherwise the sentence carries the `isinstance` count and the class name |
| Frame.NullCount | Notebooks/Utilities.py:29 | the null count of a column is at most its length |
| Frame.SentinelCount | Notebooks/Utilities.py:266 | the count of cells equal to "SD" is at most the column length |
| Frame.NullAndSentinelDisjoint | Notebooks/Utilities.py:266 | null and "SD" cells together are at most the column; null and non-null cells make up the column |
| Barrios.NamesShape | Notebooks/Utilities.py:298 | there are 48 names and none is empty |
| Barrios.NameInitials | Notebooks/Utilities.py:298 | every name starts with a capital ASCII letter; "Palermo" is the first to start with P and "Recoleta" the first with R |
| Barrios.FirstMatchAt | Notebooks/Utilities.py:301 | the alternative taken at a position is the first name in list order that occurs there between word boundaries; there is none exactly when no name does |
| Barrios.FindAllFrom | Notebooks/Utilities.py:301-304 | every match is the first fitting name at its position. The matches are in text order without overlap, and every position where a name fits lies inside a match |
| Barrios.FindNames | Notebooks/Utilities.py:304 | one name per match, each one of the list and occurring at its match position, bounded by non-word characters or the ends of the text |
| Barrios.FindNamesOrdered | Notebooks/Utilities.py:301-304 | names found are in text order and do not overlap; no earlier name of the list fits where one was found |
| Barrios.FindNamesComplete | Notebooks/Utilities.py:301-304 | no place where a name fits is missed: it lies inside a reported match |
| Barrios.RepeatsKept | Notebooks/Utilities.py:304 | an example: with the one name "ab", the text "ab ab" gives ["ab", "ab"] |
| Barrios.PalermoYRecoleta | Notebooks/Utilities.py:298-304 | on the 48 real names, "Palermo y Recoleta" gives ["Palermo", "Recoleta"] |
| Barrios.PrefixNameDoesNotMatch | Notebooks/Utilities.py:298-301 | where a longer name occurs, a shorter name that is a prefix of it ("Flores" in "Floresta") cannot match, because of the trailing word boundary |
| Barrios.FindBarrios | Notebooks/Utilities.py:298-304 | every name found in a paragraph is one of the 48 neighbourhood names |
| Barrios.Enumerate | Notebooks/Utilities.py:309-312 | one name is written alone; the text starts with the first name, and for two or more ends with " y " and the last |
| Barrios.EnumerateIsEnumeration | Notebooks/Utilities.py:309-312 | `', '.join(xs[:-1]) + ' y ' + xs[-1]` is the Spanish enumeration: one name alone, "A y B", and "A, " before the enumeration of the rest |
| Barrios.ComunaUrl | Notebooks/Utilities.py:291 | the page address is the district-office prefix followed by decimal digits that read back as the district number |
| Barrios.ComunaUrlInjective | Notebooks/Utilities.py:291 | different districts are read from different page URLs |
| Barrios.FoundSentence | Notebooks/Utilities.py:307-315 | a valid district's sentence is never the validation sentence. It is the not-found sentence exactly when no name was found, and otherwise starts with "Los barrios que conforman la Comuna " |
| Barrios.FoundSentenceShape | Notebooks/Utilities.py:307-313 | a non-empty list of names found is reported after the fixed prefix and the district number as its Spanish enumeration: one name alone, two or more as "A, B y C" |
| Barrios.BarriosPorComuna | Notebooks/Utilities.py:290-317 | the validation sentence comes back exactly for districts outside 1..15. For a valid district it is the not-found sentence exactly when no name is found, and otherwise the prefix, the district and the enumeration of the names found |
| Barrios.BarriosPorComunaPages | Notebooks/Utilities.py:290-317 | an invalid district's answer does not depend on any page; a valid district's sentence depends only on its own page |

## Left out

- `obtener_release_year` (`Notebooks/Utilities.py:119-153`) is left out whole: it is an HTTP request and an HTML lookup wrapped in a `try` that turns every error into `None`.
- The fetch in `barrios_por_comuna` (`Notebooks/Utilities.py:291-296`) is left out. It is the request, the HTML parse and the positional `find_all('p')[3]`, and the `paragraph` parameter stands for it. The source does not handle request or lookup errors there, and the model does not model them either.
- Printing and table rendering are left out, because they return nothing. This covers `porcentaje_nulos`, `tipos_de_datos_unico` and `calculate_percentage_of_sd`. The per-type table of `tipos_de_datos_unico` is not modelled at all.
- The floating-point percentages are left out: `round(..., 1)`, `:.2f` and the NaN an empty frame produces. Only the integer null and "SD" counts are kept.
- `astype(str)` is the `render` parameter, because Python's text of arbitrary objects is outside the model.
- Frame.CountDuplicates: compares cells by structural equality of the cell datatype, so Python equality across numeric types (`1 == 1.0 == True`) is not modelled.
- Frame.NUnique: compares cells by structural equality of the cell datatype, so `1`, `1.0` and `True` count as three values where pandas counts one.
- Frame.CountDuplicates: compares rows cell by cell, so a row holding `None` and one holding NaN in the same column differ. pandas gives every null the same code when it factorizes a frame of two or more columns, so there such rows can count as duplicates.
- Frame.FilasDuplicadas: uses the duplicate count of Frame.CountDuplicates, so it shares both gaps stated there.
- Floats are modelled as reals.
- Cells.ParseHMS: accepts one or two ASCII digits per field. `strptime` also accepts other Unicode decimal digits, which are not modelled.
- Barrios.IsWordChar: `\w` is ASCII letters and digits, `_`, the letters and numerals of the Latin-1 Supplement, and the Latin Extended-A block. Letters and digits of other Unicode blocks count as non-word characters.
- Frame.Lookup: with repeated column names it picks the first column, where pandas returns a frame. The three helpers that look a column up test for a repeated name first and fail as pandas does, so the first column is used only when the name is unique.
- Frame.CountDataByType: for a repeated name on a frame with no rows, the model gives a count of 0. This follows how pandas 2 aligns an empty mask; other pandas versions may raise there instead.
- Cells.Cell: values of further classes, such as `Decimal` or `timedelta`, are `Other` cells named by their class. Their own subclass relations, and any nulls beyond `None`, NaN, `NaT` and `NA`, are not modelled.
- Cells.IsInstance: takes a single class. `isinstance` with a tuple of classes, or with an abstract base class such as `numbers.Number` that registers classes it does not derive, is not modelled.
- Frame.CountDataByType: inherits the single-class limit of Cells.IsInstance; asking for a tuple of classes or an abstract base class is not modelled.
- Cells.PyType: `OtherType` names only classes the model has no constructor for; writing a modelled class's name there (`OtherType("int")`) does not stand for that class.
- Cells.IsSubclass: an `Other` class is a subclass only of itself and `object`. User class hierarchies are not modelled.
- Barrios.BarriosPorComuna: takes an integer district. A float such as 3.0 or a bool would also pass `in range(1, 16)` in Python, with a different URL; that is not modelled.

=== FILE: barrios.dfy ===
/**
 * The text side of `barrios_por_comuna`: the district range check, the scan
 * of a paragraph for the 48 neighbourhood names of Buenos Aires with the
 * pattern `\b(?:name1|name2|...)\b` as `re.findall` applies it, and the
 * Spanish enumeration "A, B y C" of the names found.
 *
 * Long literals (the list of names, two sentences and the page address) are
 * written as concatenations of short pieces: the verifier computes with a
 * short literal element by element, which is what the proofs about
 * particular texts need.
 */
module Barrios {
  import opened Wrappers
  import Text

  /** The neighbourhood names, in the order of the alternation, in rows of six. */
  const Names0: seq<string> := ["Agronomía", "Almagro", "Balvanera", "Barracas", "Belgrano", "Boedo"]
  const Names1: seq<string> := ["Caballito", "Chacarita", "Coghlan", "Colegiales", "Constitución", "Flores"]
  const Names2: seq<string> := ["Floresta", "La Boca", "La Paternal", "Liniers", "Mataderos", "Monserrat"]
  const Names3: seq<string> := ["Monte Castro", "Nueva Pompeya", "Núñez", "Palermo", "Parque Avellaneda", "Parque Chacabuco"]
  const Names4: seq<string> := ["Parque Chas", "Parque Patricios", "Paternal", "Puerto Madero", "Recoleta", "Retiro"]
  const Names5: seq<string> := ["Saavedra", "San Cristóbal", "San Nicolás", "San Telmo", "Vélez Sársfield", "Versalles"]
  const Names6: seq<string> := ["Villa Crespo", "Villa del Parque", "Villa Devoto", "Villa General Mitre", "Villa Lugano", "Villa Luro"]
  const Names7: seq<string> := ["Villa Ortúzar", "Villa Pueyrredón", "Villa Real", "Villa Riachuelo", "Villa Santa Rita", "Villa Soldati"]
  const Names: seq<string> := Names0 + Names1 + Names2 + Names3 + Names4 + Names5 + Names6 + Names7

  predicate AllNonEmpty(xs: seq<string>) {
    forall i :: 0 <= i < |xs| ==> |xs[i]| >= 1
  }

  /** There are 48 names and none is empty, so every match advances the scan. */
  lemma NamesShape()
    ensures |Names| == 48
    ensures AllNonEmpty(Names)
  {
  }

  /**
   * A character `\w` matches: ASCII letters and digits, the underscore, the
   * letters and numerals of the Latin-1 Supplement (ª ² ³ µ ¹ º ¼ ½ ¾ and
   * À to ÿ except × and ÷), and the Latin Extended-A block.
   */
  predicate IsWordChar(c: char) {
    || ('a' <= c <= 'z') || ('A' <= c <= 'Z') || ('0' <= c <= '9') || c == '_'
    || c == '\U{00AA}' || c == '\U{00B2}' || c == '\U{00B3}' || c == '\U{00B5}'
    || c == '\U{00B9}' || c == '\U{00BA}' || ('\U{00BC}' <= c <= '\U{00BE}')
    || ('\U{00C0}' <= c <= '\U{017F}' && c != '\U{00D7}' && c != '\U{00F7}')
  }

  /** Whether the character at `i` is a word character; outside the text it is not. */
  predicate WordAt(s: string, i: int) {
    0 <= i < |s| && IsWordChar(s[i])
  }

  /** `\b` at position `i`: a word character on exactly one side. */
  predicate Boundary(s: string, i: int) {
    WordAt(s, i - 1) != WordAt(s, i)
  }

  /** `w` occurs at `q` with a word boundary on both sides. */
  predicate MatchesAt(s: string, q: nat, w: string) {
    q + |w| <= |s| && s[q..q + |w|] == w && Boundary(s, q) && Boundary(s, q + |w|)
  }

  /** The first alternative of `names`, from index `i` on, that matches at `q`. */
  function FirstMatchFrom(names: seq<string>, s: string, q: nat, i: nat): (r: Option<nat>)
    requires i <= |names|
    ensures r.Some? ==> i <= r.value < |names| && MatchesAt(s, q, names[r.value])
    ensures r.Some? ==> forall j :: i <= j < r.value ==> !MatchesAt(s, q, names[j])
    ensures r.None? ==> forall j :: i <= j < |names| ==> !MatchesAt(s, q, names[j])
    decreases |names| - i
  {
    if i == |names| then None
    else if MatchesAt(s, q, names[i]) then Some(i)
    else FirstMatchFrom(names, s, q, i + 1)
  }

  /** The alternative the regular expression takes at `q`: the first in list order that matches. */
  function FirstMatchAt(names: seq<string>, s: string, q: nat): (r: Option<nat>)
    ensures r.Some? ==> r.value < |names| && MatchesAt(s, q, names[r.value])
    ensures r.Some? ==> forall j :: 0 <= j < r.value ==> !MatchesAt(s, q, names[j])
    ensures r.None? <==> forall j :: 0 <= j < |names| ==> !MatchesAt(s, q, names[j])
  {
    FirstMatchFrom(names, s, q, 0)
  }

  /** A match: where it starts and the index of the name in the alternation. */
  datatype Hit = Hit(pos: nat, idx: nat)

  /** Position `q` lies inside one of the matches `r`. */
  predicate Covered(names: seq<string>, r: seq<Hit>, q: nat)
    requires forall k :: 0 <= k < |r| ==> r[k].idx < |names|
  {
    exists k :: 0 <= k < |r| && r[k].pos <= q < r[k].pos + |names[r[k].idx]|
  }

  /** Some name of the list fits at `q`. */
  predicate SomeNameFits(names: seq<string>, s: string, q: nat) {
    FirstMatchAt(names, s, q).Some?
  }

  /** A match at `p` followed by matches covering everything after it covers everything from `p` on. */
  lemma CoverStep(names: seq<string>, s: string, p: nat, i: nat, rest: seq<Hit>)
    requires i < |names| && forall k :: 0 <= k < |rest| ==> rest[k].idx < |names|
    requires forall q :: p + |names[i]| <= q < |s| && SomeNameFits(names, s, q) ==> Covered(names, rest, q)
    ensures forall q :: p <= q < |s| && SomeNameFits(names, s, q) ==> Covered(names, [Hit(p, i)] + rest, q)
  {
    var r := [Hit(p, i)] + rest;
    forall q | p <= q < |s| && SomeNameFits(names, s, q)
      ensures Covered(names, r, q)
    {
      if q < p + |names[i]| {
        assert r[0].pos <= q < r[0].pos + |names[r[0].idx]|;
      } else {
        assert Covered(names, rest, q);
        var k :| 0 <= k < |rest| && rest[k].pos <= q < rest[k].pos + |names[rest[k].idx]|;
        assert r[k + 1] == rest[k];
      }
    }
  }

  /** Every match lies in the text at or after `p`. */
  predicate HitsInText(names: seq<string>, s: string, p: nat, r: seq<Hit>) {
    forall k :: 0 <= k < |r| ==>
      r[k].idx < |names| && p <= r[k].pos && r[k].pos + |names[r[k].idx]| <= |s|
  }

  /** At every match the name is the alternative the regular expression takes. */
  predicate HitsChosen(names: seq<string>, s: string, r: seq<Hit>) {
    forall k :: 0 <= k < |r| ==> FirstMatchAt(names, s, r[k].pos) == Some(r[k].idx)
  }

  /** Each match ends before the next one starts. */
  predicate HitsApart(names: seq<string>, r: seq<Hit>)
    requires forall k :: 0 <= k < |r| ==> r[k].idx < |names|
  {
    forall k :: 0 <= k < |r| - 1 ==> r[k].pos + |names[r[k].idx]| <= r[k + 1].pos
  }

  /**
   * The matches `r` reported from `p` on are sound, in order without overlap,
   * and cover every position where some name fits.
   */
  predicate Scanned(names: seq<string>, s: string, p: nat, r: seq<Hit>) {
    && HitsInText(names, s, p, r)
    && HitsChosen(names, s, r)
    && HitsApart(names, r)
    && (forall q :: p <= q < |s| && SomeNameFits(names, s, q) ==> Covered(names, r, q))
  }

  /** A match at `p` before matches from its end on keeps every match in the text. */
  lemma ConsInText(names: seq<string>, s: string, p: nat, i: nat, rest: seq<Hit>)
    requires i < |names| && p + |names[i]| <= |s| && HitsInText(names, s, p + |names[i]|, rest)
    ensures HitsInText(names, s, p, [Hit(p, i)] + rest)
  {
    var r := [Hit(p, i)] + rest;
    forall k | 0 <= k < |r|
      ensures r[k].idx < |names| && p <= r[k].pos && r[k].pos + |names[r[k].idx]| <= |s|
    {
      if k > 0 {
        assert r[k] == rest[k - 1];
      }
    }
  }

  /** Prepending the alternative taken at `p` keeps every match the one taken. */
  lemma ConsChosen(names: seq<string>, s: string, p: nat, i: nat, rest: seq<Hit>)
    requires FirstMatchAt(names, s, p) == Some(i) && HitsChosen(names, s, rest)
    ensures HitsChosen(names, s, [Hit(p, i)] + rest)
  {
    var r := [Hit(p, i)] + rest;
    forall k | 0 <= k < |r|
      ensures FirstMatchAt(names, s, r[k].pos) == Some(r[k].idx)
    {
      if k > 0 {
        assert r[k] == rest[k - 1];
      }
    }
  }

  /** A match at `p` ending before all later matches keeps the matches apart. */
  lemma ConsApart(names: seq<string>, p: nat, i: nat, rest: seq<Hit>)
    requires i < |names| && forall k :: 0 <= k < |rest| ==> rest[k].idx < |names| && p + |names[i]| <= rest[k].pos
    requires HitsApart(names, rest)
    ensures HitsApart(names, [Hit(p, i)] + rest)
  {
    var r := [Hit(p, i)] + rest;
    forall k | 0 <= k < |r| - 1
      ensures r[k].pos + |names[r[k].idx]| <= r[k + 1].pos
    {
      assert r[k + 1] == rest[k];
      if k > 0 {
        assert r[k] == rest[k - 1];
      }
    }
  }

  /** The match taken at `p`, followed by the matches after it, is a scan from `p`. */
  lemma ScannedCons(names: seq<string>, s: string, p: nat, i: nat, rest: seq<Hit>)
    requires p < |s| && FirstMatchAt(names, s, p) == Some(i)
    requires Scanned(names, s, p + |names[i]|, rest)
    ensures Scanned(names, s, p, [Hit(p, i)] + rest)
  {
    ConsInText(names, s, p, i, rest);
    ConsChosen(names, s, p, i, rest);
    ConsApart(names, p, i, rest);
    CoverStep(names, s, p, i, rest);
  }

  /**
   * The matches `re.findall` reports from position `p` on: where some name
   * fits, the first in list order is taken and the scan resumes after it;
   * elsewhere the scan moves one character on.
   */
  function FindAllFrom(names: seq<string>, s: string, p: nat): (r: seq<Hit>)
    requires AllNonEmpty(names) && p <= |s|
    ensures forall k :: 0 <= k < |r| ==>
      r[k].idx < |names| && p <= r[k].pos && r[k].pos + |names[r[k].idx]| <= |s|
    ensures forall k :: 0 <= k < |r| ==> FirstMatchAt(names, s, r[k].pos) == Some(r[k].idx)
    ensures forall k :: 0 <= k < |r| - 1 ==> r[k].pos + |names[r[k].idx]| <= r[k + 1].pos
    ensures forall q :: p <= q < |s| && SomeNameFits(names, s, q) ==> Covered(names, r, q)
    decreases |s| - p
  {
    if p == |s| then []
    else
      match FirstMatchAt(names, s, p)
      case None => FindAllFrom(names, s, p + 1)
      case Some(i) =>
        var rest := FindAllFrom(names, s, p + |names[i]|);
        ScannedCons(names, s, p, i, rest);
        [Hit(p, i)] + rest
  }

  /** The names of the matches, in order. */
  function HitNames(names: seq<string>, hits: seq<Hit>): (r: seq<string>)
    requires forall k :: 0 <= k < |hits| ==> hits[k].idx < |names|
    ensures |r| == |hits|
    ensures forall k :: 0 <= k < |r| ==> r[k] == names[hits[k].idx]
  {
    seq(|hits|, k requires 0 <= k < |hits| => names[hits[k].idx])
  }

  /** `re.findall` of the alternation of `names` between `\b`s: the names found, in text order, repeats kept. */
  function FindNames(names: seq<string>, s: string): (r: seq<string>)
    requires AllNonEmpty(names)
    ensures |r| == |FindAllFrom(names, s, 0)|
    ensures forall k :: 0 <= k < |r| ==> r[k] in names && MatchesAt(s, FindAllFrom(names, s, 0)[k].pos, r[k])
  {
    HitNames(names, FindAllFrom(names, s, 0))
  }

  /**
   * The names are found in text order without overlap, and at each match the
   * name taken is the first in list order that fits there.
   */
  lemma FindNamesOrdered(names: seq<string>, s: string)
    requires AllNonEmpty(names)
    ensures var hits := FindAllFrom(names, s, 0);
      && (forall k :: 0 <= k < |hits| - 1 ==> hits[k].pos + |FindNames(names, s)[k]| <= hits[k + 1].pos)
      && (forall k, j :: 0 <= k < |hits| && 0 <= j < hits[k].idx ==> !MatchesAt(s, hits[k].pos, names[j]))
  {
  }

  /** A place where a name fits lies inside one of the matches the scan reports. */
  lemma HitsCover(names: seq<string>, s: string, q: nat, j: nat)
    requires AllNonEmpty(names) && q < |s| && j < |names| && MatchesAt(s, q, names[j])
    ensures Covered(names, FindAllFrom(names, s, 0), q)
  {
    assert SomeNameFits(names, s, q);
  }

  /** A covered position lies inside the text of one of the names matched. */
  lemma CoveredByName(names: seq<string>, hits: seq<Hit>, q: nat) returns (k: nat)
    requires forall k :: 0 <= k < |hits| ==> hits[k].idx < |names|
    requires Covered(names, hits, q)
    ensures k < |hits| && hits[k].pos <= q < hits[k].pos + |HitNames(names, hits)[k]|
  {
    k :| 0 <= k < |hits| && hits[k].pos <= q < hits[k].pos + |names[hits[k].idx]|;
  }

  /** Nothing is missed: every place where some name fits lies inside a match. */
  lemma FindNamesComplete(names: seq<string>, s: string, q: nat, j: nat)
    requires AllNonEmpty(names) && q < |s| && j < |names| && MatchesAt(s, q, names[j])
    ensures var hits := FindAllFrom(names, s, 0);
      exists k :: 0 <= k < |hits| && hits[k].pos <= q < hits[k].pos + |FindNames(names, s)[k]|
  {
    var hits := FindAllFrom(names, s, 0);
    HitsCover(names, s, q, j);
    var k := CoveredByName(names, hits, q);
    assert FindNames(names, s) == HitNames(names, hits);
    assert hits[k].pos <= q < hits[k].pos + |FindNames(names, s)[k]|;
  }

  /** With the one name "ab", the text "ab ab" gives it twice: `findall` keeps repeats. */
  lemma RepeatsKept()
    ensures FindNames(["ab"], "ab ab") == ["ab", "ab"]
  {
    var s := "ab ab";
    assert MatchesAt(s, 0, "ab");
    assert !MatchesAt(s, 1, "ab");
    assert !MatchesAt(s, 2, "ab");
    assert MatchesAt(s, 3, "ab");
  }

  /** Every name of `xs` is non-empty and starts with a letter in `lo .. hi`. */
  predicate InitialsIn(xs: seq<string>, lo: char, hi: char) {
    forall i :: 0 <= i < |xs| ==> |xs[i]| >= 1 && lo <= xs[i][0] <= hi
  }

  /**
   * None of the first `n` names matches where the text holds a letter outside
   * the range their initials lie in.
   */
  lemma InitialMismatch(names: seq<string>, s: string, q: nat, n: nat, lo: char, hi: char)
    requires n <= |names| && q < |s| && InitialsIn(names[..n], lo, hi) && !(lo <= s[q] <= hi)
    ensures forall j :: 0 <= j < n ==> !MatchesAt(s, q, names[j])
  {
  }

  /** Two lists whose initials lie in a range join into one that does. */
  lemma InitialsConcat(xs: seq<string>, ys: seq<string>, lo: char, hi: char)
    requires InitialsIn(xs, lo, hi) && InitialsIn(ys, lo, hi)
    ensures InitialsIn(xs + ys, lo, hi)
  {
  }

  /** Initials in a range lie in any wider range. */
  lemma InitialsWiden(xs: seq<string>, lo: char, hi: char, lo': char, hi': char)
    requires InitialsIn(xs, lo, hi) && lo' <= lo && hi <= hi'
    ensures InitialsIn(xs, lo', hi')
  {
  }

  /** The names before "Palermo" start with A to N. */
  lemma LowInitials()
    ensures InitialsIn(Names0 + Names1 + Names2 + Names3[..3], 'A', 'N')
  {
  }

  /** From "Palermo" to "Puerto Madero" every name starts with P. */
  lemma MidInitials()
    ensures InitialsIn(Names3[3..] + Names4[..4], 'P', 'P')
  {
  }

  /** From "Recoleta" on every name starts with R to Z. */
  lemma HighInitials()
    ensures InitialsIn(Names4[4..] + Names5 + Names6 + Names7, 'R', 'Z')
  {
  }

  /**
   * Every name starts with a capital ASCII letter; "Palermo" is the first to
   * start with P and "Recoleta" the first with R.
   */
  lemma NameInitials()
    ensures InitialsIn(Names, 'A', 'Z')
    ensures InitialsIn(Names[..21], 'A', 'N')
    ensures InitialsIn(Names[..28], 'A', 'P')
    ensures Names[21] == "Palermo" && Names[28] == "Recoleta"
  {
    var low := Names0 + Names1 + Names2 + Names3[..3];
    var mid := Names3[3..] + Names4[..4];
    var high := Names4[4..] + Names5 + Names6 + Names7;
    assert Names == low + mid + high;
    assert Names[..21] == low && Names[..28] == low + mid;
    LowInitials();
    MidInitials();
    HighInitials();
    InitialsWiden(low, 'A', 'N', 'A', 'P');
    InitialsWiden(mid, 'P', 'P', 'A', 'P');
    InitialsConcat(low, mid, 'A', 'P');
    InitialsWiden(low + mid, 'A', 'P', 'A', 'Z');
    InitialsWiden(high, 'R', 'Z', 'A', 'Z');
    InitialsConcat(low + mid, high, 'A', 'Z');
  }

  /** The example text below: two names joined by "y". */
  const PalermoText := "Palermo y Recoleta"

  /** The alternative taken is the one that matches with no earlier one matching. */
  lemma FirstMatchIs(names: seq<string>, s: string, q: nat, i: nat)
    requires i < |names| && MatchesAt(s, q, names[i])
    requires forall j :: 0 <= j < i ==> !MatchesAt(s, q, names[j])
    ensures FirstMatchAt(names, s, q) == Some(i)
  {
  }

  /** Both names of the example stand between word boundaries. */
  lemma ExampleWords()
    ensures MatchesAt(PalermoText, 0, "Palermo")
    ensures MatchesAt(PalermoText, 10, "Recoleta")
  {
    assert PalermoText[0..7] == "Palermo";
    assert PalermoText[10..18] == "Recoleta";
  }

  /** At the start of the example "Palermo" is the alternative taken. */
  lemma PalermoFirst()
    ensures FirstMatchAt(Names, PalermoText, 0) == Some(21)
  {
    NameInitials();
    ExampleWords();
    InitialMismatch(Names, PalermoText, 0, 21, 'A', 'N');
    FirstMatchIs(Names, PalermoText, 0, 21);
  }

  /** At position 10 of the example "Recoleta" is the alternative taken. */
  lemma RecoletaSecond()
    ensures FirstMatchAt(Names, PalermoText, 10) == Some(28)
  {
    NameInitials();
    ExampleWords();
    InitialMismatch(Names, PalermoText, 10, 28, 'A', 'P');
    FirstMatchIs(Names, PalermoText, 10, 28);
  }

  /** No name starts at the blank, the "y" or the second blank of the example. */
  lemma NothingBetween(q: nat)
    requires 7 <= q <= 9
    ensures FirstMatchAt(Names, PalermoText, q).None?
  {
    NameInitials();
    NamesShape();
    assert Names[..48] == Names;
    InitialMismatch(Names, PalermoText, q, 48, 'A', 'Z');
  }

  /** From the blank after "Palermo" on, the scan finds "Recoleta" alone. */
  lemma RecoletaHits()
    ensures FindAllFrom(Names, PalermoText, 7) == [Hit(10, 28)]
  {
    var s := PalermoText;
    NamesShape();
    NameInitials();
    RecoletaSecond();
    NothingBetween(7);
    NothingBetween(8);
    NothingBetween(9);
    assert FindAllFrom(Names, s, 18) == [];
    assert FindAllFrom(Names, s, 10) == [Hit(10, 28)];
    assert FindAllFrom(Names, s, 9) == [Hit(10, 28)];
    assert FindAllFrom(Names, s, 8) == [Hit(10, 28)];
  }

  /** The scan of the example matches name 21 at 0 and name 28 at 10. */
  lemma PalermoHits()
    ensures FindAllFrom(Names, PalermoText, 0) == [Hit(0, 21), Hit(10, 28)]
  {
    NamesShape();
    NameInitials();
    PalermoFirst();
    RecoletaHits();
  }

  /** On the real list, "Palermo y Recoleta" yields both names, in text order. */
  lemma PalermoYRecoleta()
    ensures FindBarrios(PalermoText) == ["Palermo", "Recoleta"]
  {
    NamesShape();
    NameInitials();
    PalermoHits();
    assert HitNames(Names, [Hit(0, 21), Hit(10, 28)]) == ["Palermo", "Recoleta"];
  }

  /**
   * Where a longer name occurs, a shorter name that is a prefix of it and is
   * followed in it by a word character does not match, whatever their order in
   * the list: "Flores" never matches inside "Floresta".
   */
  lemma PrefixNameDoesNotMatch(s: string, q: nat, short: string, long: string)
    requires Text.StartsWith(long, short) && |short| < |long| && IsWordChar(long[|short|])
    requires |short| >= 1 && IsWordChar(long[|short| - 1])
    requires q + |long| <= |s| && s[q..q + |long|] == long
    ensures !MatchesAt(s, q, short)
  {
  }

  // ---------------------------------------------------------------------
  // Sentence
  // ---------------------------------------------------------------------

  /** `', '.join(xs[:-1]) + ' y ' + xs[-1]`, or the one name alone. */
  function Enumerate(xs: seq<string>): (r: string)
    requires |xs| >= 1
    ensures |xs| == 1 ==> r == xs[0]
    ensures Text.StartsWith(r, xs[0])
    ensures |xs| >= 2 ==> Text.EndsWith(r, " y " + xs[|xs| - 1])
  {
    if |xs| > 1 then Text.Join(xs[..|xs| - 1], ", ") + " y " + xs[|xs| - 1]
    else xs[0]
  }

  /** The Spanish enumeration written head first: "A y B", "A, " + the rest. */
  function Enumeration(xs: seq<string>): (r: string)
    requires |xs| >= 1
    ensures Text.StartsWith(r, xs[0]) && Text.EndsWith(r, xs[|xs| - 1])
  {
    if |xs| == 1 then xs[0]
    else if |xs| == 2 then xs[0] + " y " + xs[1]
    else xs[0] + ", " + Enumeration(xs[1..])
  }

  /** The join in `barrios_por_comuna` is the Spanish enumeration. */
  lemma {:induction false} EnumerateIsEnumeration(xs: seq<string>)
    requires |xs| >= 1
    ensures Enumerate(xs) == Enumeration(xs)
    decreases |xs|
  {
    if |xs| > 2 {
      var n := |xs|;
      var init := xs[..n - 1];
      assert init[1..] == xs[1..][..n - 2];
      assert xs[1..][n - 2] == xs[n - 1];
      EnumerateIsEnumeration(xs[1..]);
      calc {
        Enumerate(xs);
        Text.Join(init, ", ") + " y " + xs[n - 1];
        (xs[0] + ", " + Text.Join(init[1..], ", ")) + " y " + xs[n - 1];
        xs[0] + ", " + (Text.Join(xs[1..][..n - 2], ", ") + " y " + xs[1..][n - 2]);
        xs[0] + ", " + Enumerate(xs[1..]);
      }
    }
  }

  const InvalidComunaSentence := "Ingrese un número de Comuna " + "válido"
  const NotFoundSentence := "No se encontraron barrios " + "correspondientes a esa Comuna."
  const FoundPrefix := "Los barrios que conforman la Comuna "

  /** `re.findall(patron, barrios_info)` with the 48 neighbourhood names. */
  function FindBarrios(paragraph: string): (r: seq<string>)
    ensures forall k :: 0 <= k < |r| ==> r[k] in Names
  {
    NamesShape();
    FindNames(Names, paragraph)
  }

  const UrlPrefix := "https://buenosaires.gob.ar/" + "sede-comunal-"

  /** The district page the paragraph is taken from: the address ends in the district number. */
  function ComunaUrl(comuna: nat): (u: string)
    ensures Text.StartsWith(u, UrlPrefix)
    ensures |u| > |UrlPrefix| && Text.AllDigits(u[|UrlPrefix|..])
    ensures Text.ParseNat(u[|UrlPrefix|..]) == comuna
  {
    var u := UrlPrefix + Text.NatToString(comuna);
    assert u[|UrlPrefix|..] == Text.NatToString(comuna);
    Text.ParseNatToString(comuna);
    u
  }

  /** Different districts are fetched from different pages. */
  lemma ComunaUrlInjective(a: nat, b: nat)
    requires ComunaUrl(a) == ComunaUrl(b)
    ensures a == b
  {
    assert ComunaUrl(a) == UrlPrefix + Text.NatToString(a) + "";
    assert ComunaUrl(b) == UrlPrefix + Text.NatToString(b) + "";
    Text.FramedInjective(UrlPrefix, Text.NatToString(a), Text.NatToString(b), "");
    Text.NatToStringInjective(a, b);
  }

  predicate ValidComuna(comuna: int) {
    1 <= comuna <= 15
  }

  /**
   * The sentence for the names found in a valid district's paragraph. It is
   * never the validation sentence, and it is the not-found one exactly when
   * nothing was found.
   */
  function FoundSentence(comuna: nat, found: seq<string>): (s: string)
    ensures s != InvalidComunaSentence
    ensures s == NotFoundSentence <==> |found| == 0
    ensures |found| >= 1 ==> Text.StartsWith(s, FoundPrefix)
  {
    if |found| == 0 then NotFoundSentence
    else
      var s := FoundPrefix + Text.NatToString(comuna) + " son: " + Enumerate(found);
      assert s[0] == 'L' && NotFoundSentence[0] == 'N' && InvalidComunaSentence[0] == 'I';
      s
  }

  /**
   * `barrios_por_comuna`. `paragraph` stands for fetching a district page
   * and taking the fourth paragraph of its content block; it is consulted
   * only for a valid district.
   */
  function BarriosPorComuna(comuna: int, paragraph: string -> string): (r: string)
    ensures r == InvalidComunaSentence <==> !ValidComuna(comuna)
    ensures ValidComuna(comuna) ==>
      (r == NotFoundSentence <==> |FindBarrios(paragraph(ComunaUrl(comuna)))| == 0)
    ensures ValidComuna(comuna) && |FindBarrios(paragraph(ComunaUrl(comuna)))| >= 1 ==>
      r == FoundPrefix + Text.NatToString(comuna) + " son: " + Enumeration(FindBarrios(paragraph(ComunaUrl(comuna))))
  {
    if ValidComuna(comuna) then
      var found := FindBarrios(paragraph(ComunaUrl(comuna)));
      if |found| >= 1 then
        EnumerateIsEnumeration(found);
        FoundSentence(comuna, found)
      else
        FoundSentence(comuna, found)
    else InvalidComunaSentence
  }

  /**
   * Whatever the pages hold, an invalid district gets the same answer; a valid
   * district's sentence is read from its own page only.
   */
  lemma BarriosPorComunaPages(comuna: int, paragraph: string -> string, other: string -> string)
    ensures !ValidComuna(comuna) ==> BarriosPorComuna(comuna, paragraph) == BarriosPorComuna(comuna, other)
    ensures ValidComuna(comuna) && paragraph(ComunaUrl(comuna)) == other(ComunaUrl(comuna)) ==>
      BarriosPorComuna(comuna, paragraph) == BarriosPorComuna(comuna, other)
  {
  }

  /** Names found are reported as their Spanish enumeration: one name alone, two or more as "A, B y C". */
  lemma FoundSentenceShape(comuna: nat, found: seq<string>)
    requires |found| >= 1
    ensures FoundSentence(comuna, found) == FoundPrefix + Text.NatToString(comuna) + " son: " + Enumeration(found)
  {
    EnumerateIsEnumeration(found);
  }
}

=== FILE: cells.dfy ===
/**
 * Table cells as a tagged union of the Python values a notebook column holds,
 * their runtime types with `isinstance`, and `convert_to_time`.
 */
module Cells {
  import opened Wrappers
  import Text

  /** A `datetime.time`: hour, minute, second and microsecond. */
  datatype Time = Time(hour: nat, minute: nat, second: nat, micro: nat)

  predicate ValidTime(t: Time) {
    t.hour < 24 && t.minute < 60 && t.second < 60 && t.micro < 1000000
  }

  /** A `datetime.date`: a calendar day without a clock. */
  datatype Date = Date(year: int, month: nat, day: nat)

  /** A `datetime.datetime`; only its clock part matters here. */
  datatype DateTime = DateTime(year: int, month: nat, day: nat, clock: Time)

  /**
   * A cell. `PyNone` is Python's `None`, `NaN` the float not-a-number pandas
   * uses for missing numbers, `NaT` pandas' missing datetime (an instance of
   * `datetime` whose clock cannot be read) and `NA` pandas' missing scalar.
   * `Day` is a date that is not a datetime. `Stamp` is a datetime; `pandas`
   * tells a pandas `Timestamp` (what a datetime64 column hands to `apply`)
   * from a plain `datetime.datetime`. `Unhashable` is a list, dict or
   * set, the values Python cannot hash (a parsed JSON record is one); `Other`
   * is any further, hashable, object. Both of the last two are named by their
   * class.
   */
  datatype Cell =
    | PyNone
    | NaN
    | NaT
    | NA
    | Str(s: string)
    | Int(i: int)
    | Bool(b: bool)
    | Float(x: real)
    | Day(d: Date)
    | Stamp(dt: DateTime, pandas: bool)
    | Clock(t: Time)
    | Unhashable(cls: string, repr: string)
    | Other(cls: string, repr: string)

  /**
   * Runtime classes a cell can have, or that `isinstance` can ask about.
   * `OtherType` stands only for classes not listed here by a constructor of
   * their own: `OtherType("int")` is not a way to write `IntType`.
   */
  datatype PyType =
    | NoneType | StrType | IntType | BoolType | FloatType
    | DateType | DateTimeType | TimestampType | TimeType | ObjectType
    | NaTType | NAType
    | OtherType(cls: string)

  /** `pd.isna`: the four null markers. */
  predicate IsNull(c: Cell) {
    c.PyNone? || c.NaN? || c.NaT? || c.NA?
  }

  /** Whether `hash(c)` succeeds; pandas hashes cells to compare them. */
  predicate IsHashable(c: Cell) {
    !c.Unhashable?
  }

  /**
   * `type(c)`. NaN is a float; `NaT` and `NA` have classes of their own, and a
   * pandas `Timestamp` is of class `Timestamp`, not `datetime`.
   */
  function TypeOf(c: Cell): (ty: PyType)
    ensures ty == NoneType <==> c.PyNone?
    ensures ty == DateType <==> c.Day?
    ensures ty == DateTimeType <==> c.Stamp? && !c.pandas
    ensures ty == TimestampType <==> c.Stamp? && c.pandas
    ensures IsNull(c) ==> ty in {NoneType, FloatType, NaTType, NAType}
  {
    match c
    case PyNone => NoneType
    case NaN => FloatType
    case NaT => NaTType
    case NA => NAType
    case Str(_) => StrType
    case Int(_) => IntType
    case Bool(_) => BoolType
    case Float(_) => FloatType
    case Day(_) => DateType
    case Stamp(_, pandas) => if pandas then TimestampType else DateTimeType
    case Clock(_) => TimeType
    case Unhashable(cls, _) => OtherType(cls)
    case Other(cls, _) => OtherType(cls)
  }

  /**
   * The subclass relation among the modelled classes: `bool` is an `int`,
   * `datetime` a `date`, pandas' `Timestamp` a `datetime`, and the class of
   * `NaT` derives from `datetime` (but not from `Timestamp`).
   */
  predicate IsSubclass(a: PyType, b: PyType) {
    || a == b || b == ObjectType
    || (a == BoolType && b == IntType)
    || (a == DateTimeType && b == DateType)
    || (a == TimestampType && (b == DateTimeType || b == DateType))
    || (a == NaTType && (b == DateTimeType || b == DateType))
  }

  /**
   * `isinstance(c, ty)`: true of the value's own class and of `object`;
   * otherwise only a `bool` (as an `int`), a `datetime` (as a `date`), a
   * `Timestamp` and `NaT` (each as a `datetime` and a `date`) qualify.
   * `isinstance` with a tuple of classes or an abstract base class such as
   * `numbers.Number` is not modelled.
   */
  predicate IsInstance(c: Cell, ty: PyType): (b: bool)
    ensures TypeOf(c) == ty ==> b
    ensures ty == ObjectType ==> b
    ensures ty == DateType ==> (b <==> c.Day? || c.Stamp? || c.NaT?)
    ensures ty == DateTimeType ==> (b <==> c.Stamp? || c.NaT?)
    ensures ty == TimestampType ==> (b <==> c.Stamp? && c.pandas)
    ensures b && ty != ObjectType && TypeOf(c) != ty ==>
      || (c.Bool? && ty == IntType)
      || ((c.Stamp? || c.NaT?) && ty == DateType)
      || (((c.Stamp? && c.pandas) || c.NaT?) && ty == DateTimeType)
  {
    IsSubclass(TypeOf(c), ty)
  }

  /** `str(ty)`, the text `count_data_by_type` puts in its sentence. */
  function TypeName(ty: PyType): (s: string)
    ensures |s| >= 10 && Text.StartsWith(s, "<class '") && Text.EndsWith(s, "'>")
    ensures ty.OtherType? ==> s[8..|s| - 2] == ty.cls
  {
    "<class '" + (match ty
      case NoneType => "NoneType"
      case StrType => "str"
      case IntType => "int"
      case BoolType => "bool"
      case FloatType => "float"
      case DateType => "datetime.date"
      case DateTimeType => "datetime.datetime"
      case TimestampType => "pandas._libs.tslibs.timestamps.Timestamp"
      case TimeType => "datetime.time"
      case ObjectType => "object"
      case NaTType => "pandas._libs.tslibs.nattype.NaTType"
      case NAType => "pandas._libs.missing.NAType"
      case OtherType(cls) => cls) + "'>"
  }

  /**
   * One field of `%H`, `%M` or `%S`: one or two ASCII digits whose value is
   * below `bound`. `%S` accepts 60 and 61, but building the datetime then
   * raises `ValueError`, so for the caller the seconds bound is 60 as well.
   */
  function ParseField(f: string, bound: nat): (r: Option<nat>)
    ensures r.Some? ==> r.value < bound && 1 <= |f| <= 2 && Text.AllDigits(f)
  {
    if 1 <= |f| <= 2 && Text.AllDigits(f) && Text.ParseNat(f) < bound
    then Some(Text.ParseNat(f)) else None
  }

  /** The parse with an `a`-character hour field and a `b`-character minute field. */
  function ParseWith(s: string, a: nat, b: nat): (r: Option<Time>)
    requires 1 <= a <= 2 && 1 <= b <= 2
    ensures r.Some? ==> ValidTime(r.value) && r.value.micro == 0 && a + b + 3 <= |s| <= a + b + 4
    ensures r.Some? ==> s[a] == ':' && s[a + b + 1] == ':'
    ensures r.Some? ==> Text.AllDigits(s[..a]) && Text.AllDigits(s[a + 1..a + b + 1]) && Text.AllDigits(s[a + b + 2..])
    ensures r.Some? ==> r.value == Time(Text.ParseNat(s[..a]), Text.ParseNat(s[a + 1..a + b + 1]), Text.ParseNat(s[a + b + 2..]), 0)
  {
    if |s| < a + b + 3 || s[a] != ':' || s[a + b + 1] != ':' then None
    else
      match (ParseField(s[..a], 24), ParseField(s[a + 1..a + b + 1], 60), ParseField(s[a + b + 2..], 60))
      case (Some(h), Some(m), Some(sec)) => Some(Time(h, m, sec, 0))
      case _ => None
  }

  /**
   * `datetime.strptime(s, "%H:%M:%S").time()`: the whole string must be
   * hours, colon, minutes, colon, seconds. The hour and minute alternatives
   * are tried widest first, as the regular expression behind `strptime` does.
   */
  function ParseHMS(s: string): (r: Option<Time>)
    ensures r.Some? ==> ValidTime(r.value) && r.value.micro == 0 && 5 <= |s| <= 8
    ensures r.Some? ==> forall i :: 0 <= i < |s| ==> Text.IsDigit(s[i]) || s[i] == ':'
  {
    var r22 := ParseWith(s, 2, 2);
    if r22.Some? then r22 else
    var r21 := ParseWith(s, 2, 1);
    if r21.Some? then r21 else
    var r12 := ParseWith(s, 1, 2);
    if r12.Some? then r12 else
    ParseWith(s, 1, 1)
  }

  /**
   * The three colon-separated fields of `%H:%M:%S`, each one or two ASCII
   * digits, the hour below 24 and the minutes and seconds below 60.
   */
  predicate HMSFields(f: seq<string>) {
    |f| == 3 && ParseField(f[0], 24).Some? && ParseField(f[1], 60).Some? && ParseField(f[2], 60).Some?
  }

  /** A string of digits has no colon. */
  lemma DigitsNoColon(x: string)
    requires Text.AllDigits(x)
    ensures ':' !in x
  {
  }

  /** A successful fixed-width parse splits at its two colons. */
  lemma ParseWithFields(s: string, a: nat, b: nat)
    requires 1 <= a <= 2 && 1 <= b <= 2 && ParseWith(s, a, b).Some?
    ensures Text.Split(s, ':') == [s[..a], s[a + 1..a + b + 1], s[a + b + 2..]]
  {
    var h, m, sec := s[..a], s[a + 1..a + b + 1], s[a + b + 2..];
    DigitsNoColon(h);
    DigitsNoColon(m);
    DigitsNoColon(sec);
    assert s == h + [':'] + (m + [':'] + sec);
    Text.SplitAfter(h, ':', m + [':'] + sec);
    Text.SplitAfter(m, ':', sec);
    Text.SplitNone(sec, ':');
  }

  /** Where the pieces of `x:y:z` sit. */
  lemma Slices(x: string, y: string, z: string)
    ensures var s, a, b := x + [':'] + (y + [':'] + z), |x|, |y|;
      && s[..a] == x && s[a] == ':' && s[a + 1..a + b + 1] == y
      && s[a + b + 1] == ':' && s[a + b + 2..] == z
  {
  }

  /** Three well-formed fields joined by colons parse at their own widths. */
  lemma FieldsParse(s: string)
    requires HMSFields(Text.Split(s, ':'))
    ensures ParseWith(s, |Text.Split(s, ':')[0]|, |Text.Split(s, ':')[1]|).Some?
  {
    var f := Text.Split(s, ':');
    Text.JoinSplit(s, ':');
    var a, b := |f[0]|, |f[1]|;
    assert s == f[0] + [':'] + (f[1] + [':'] + f[2]) by {
      assert Text.Join(f[1..][1..], [':']) == f[2];
      assert Text.Join(f[1..], [':']) == f[1] + [':'] + f[2];
    }
    Slices(f[0], f[1], f[2]);
  }

  /**
   * `strptime(s, "%H:%M:%S")` succeeds exactly when `s` splits at its colons
   * into three well-formed fields, and the time has those fields' values.
   */
  lemma ParseHMSFields(s: string)
    ensures ParseHMS(s).Some? <==> HMSFields(Text.Split(s, ':'))
    ensures ParseHMS(s).Some? ==>
      var f := Text.Split(s, ':');
      ParseHMS(s).value == Time(ParseField(f[0], 24).value, ParseField(f[1], 60).value, ParseField(f[2], 60).value, 0)
  {
    if HMSFields(Text.Split(s, ':')) {
      FieldsParse(s);
    }
    if ParseWith(s, 2, 2).Some? {
      ParseWithFields(s, 2, 2);
    } else if ParseWith(s, 2, 1).Some? {
      ParseWithFields(s, 2, 1);
    } else if ParseWith(s, 1, 2).Some? {
      ParseWithFields(s, 1, 2);
    } else if ParseWith(s, 1, 1).Some? {
      ParseWithFields(s, 1, 1);
    }
  }

  function Pad2(n: nat): (s: string)
    requires n < 100
  {
    [Text.DigitChar(n / 10), Text.DigitChar(n % 10)]
  }

  /** `str(t)` for a time without microseconds: `HH:MM:SS`. */
  function FormatTime(t: Time): (s: string)
    requires ValidTime(t)
  {
    Pad2(t.hour) + ":" + Pad2(t.minute) + ":" + Pad2(t.second)
  }

  lemma ParsePad2(n: nat, bound: nat)
    requires n < bound <= 100
    ensures ParseField(Pad2(n), bound) == Some(n)
  {
    var s := Pad2(n);
    assert s[..1] == [s[0]];
    assert Text.ParseNat(s[..1]) == n / 10 by {
      assert [s[0]][..0] == [];
    }
  }

  /** Parsing the text of a whole-second time gives that time back. */
  lemma {:induction false} ParseFormatTime(t: Time)
    requires ValidTime(t) && t.micro == 0
    ensures ParseHMS(FormatTime(t)) == Some(t)
  {
    var s := FormatTime(t);
    ParsePad2(t.hour, 24);
    ParsePad2(t.minute, 60);
    ParsePad2(t.second, 60);
    assert s[..2] == Pad2(t.hour);
    assert s[3..5] == Pad2(t.minute);
    assert s[6..] == Pad2(t.second);
  }

  /**
   * `convert_to_time`: a string that parses becomes its time, any other
   * string is returned unchanged, a datetime becomes its clock part, and
   * every other value is returned unchanged. `None` stands for the
   * `ValueError` that `NaT.time()` raises: `NaT` is a datetime, and the
   * call sits outside the `try`.
   */
  function ConvertToTime(x: Cell): (r: Option<Cell>)
    ensures r.None? <==> x.NaT?
    ensures r.Some? ==> r.value == x || r.value.Clock?
    ensures r.Some? ==> (IsNull(r.value) <==> IsNull(x))
    ensures x.Stamp? ==> r == Some(Clock(x.dt.clock))
    ensures x.Str? ==> (r == Some(x) <==> ParseHMS(x.s).None?)
    ensures x.Str? && ParseHMS(x.s).Some? ==> r == Some(Clock(ParseHMS(x.s).value))
    ensures !x.Str? && !x.Stamp? && !x.NaT? ==> r == Some(x)
  {
    match x
    case Str(s) =>
      (match ParseHMS(s)
       case Some(t) => Some(Clock(t))
       case None => Some(x))
    case Stamp(dt, _) => Some(Clock(dt.clock))
    case NaT => None
    case _ => Some(x)
  }

  /** Converting a converted value changes nothing. */
  lemma ConvertToTimeIdempotent(x: Cell)
    ensures ConvertToTime(x).Some? ==> ConvertToTime(ConvertToTime(x).value) == ConvertToTime(x)
  {
  }

  /** A string written as `HH:MM:SS` converts to the time it spells. */
  lemma ConvertFormattedTime(t: Time)
    requires ValidTime(t) && t.micro == 0
    ensures ConvertToTime(Str(FormatTime(t))) == Some(Clock(t))
  {
    ParseFormatTime(t);
  }

  /**
   * "13:45:00" becomes 13:45:00, "not-a-time", 42 and a plain date come back
   * unchanged, `NaT` raises, and a `Timestamp` gives its clock.
   */
  lemma ConvertToTimeExamples()
    ensures ConvertToTime(Str("13:45:00")) == Some(Clock(Time(13, 45, 0, 0)))
    ensures ConvertToTime(Str("not-a-time")) == Some(Str("not-a-time"))
    ensures ConvertToTime(Int(42)) == Some(Int(42))
    ensures ConvertToTime(Day(Date(2020, 1, 1))) == Some(Day(Date(2020, 1, 1)))
    ensures ConvertToTime(NaT) == None
    ensures ConvertToTime(Stamp(DateTime(2020, 1, 1, Time(8, 30, 0, 0)), true)) == Some(Clock(Time(8, 30, 0, 0)))
  {
    var t := Time(13, 45, 0, 0);
    assert FormatTime(t) == "13:45:00";
    ConvertFormattedTime(t);
    assert "not-a-time"[2] == 't';
  }
}

=== FILE: frame.dfy ===
/**
 * The inspection helpers of the notebook utilities over an abstract data
 * frame: a sequence of named columns of equal length.
 */
module Frame {
  import opened Wrappers
  import opened Cells
  import Text

  datatype Column = Column(name: string, cells: seq<Cell>)

  type Table = seq<Column>

  /**
   * The exceptions the helpers let through: `data[name]` on a missing column
   * raises `KeyError`; hashing a list, dict or set cell raises `TypeError`.
   * A repeated name makes `data[name]` a frame, and then `.str` raises
   * `AttributeError`, the truth test of the per-column counts raises
   * `ValueError`, and `data.loc` with a mask indexed by column names raises
   * `IndexingError`.
   */
  datatype Error = KeyError(column: string) | TypeError | AttributeError | ValueError | IndexingError

  /** Number of rows: the length of the first column. */
  function Height(t: Table): nat {
    if |t| == 0 then 0 else |t[0].cells|
  }

  /** A data frame is rectangular: every column has `Height(t)` cells. */
  predicate Rectangular(t: Table) {
    forall j :: 0 <= j < |t| ==> |t[j].cells| == Height(t)
  }

  /** Row `i`, one cell per column in column order. */
  function Row(t: Table, i: nat): (r: seq<Cell>)
    requires Rectangular(t) && i < Height(t)
    ensures |r| == |t|
  {
    seq(|t|, j requires 0 <= j < |t| => t[j].cells[i])
  }

  // ---------------------------------------------------------------------
  // Column lookup (`data[columna]`)
  // ---------------------------------------------------------------------

  function LookupFrom(t: Table, name: string, k: nat): (r: Option<nat>)
    requires k <= |t|
    ensures r.Some? ==> k <= r.value < |t| && t[r.value].name == name
    ensures r.Some? ==> forall j :: k <= j < r.value ==> t[j].name != name
    ensures r.None? ==> forall j :: k <= j < |t| ==> t[j].name != name
    decreases |t| - k
  {
    if k == |t| then None
    else if t[k].name == name then Some(k)
    else LookupFrom(t, name, k + 1)
  }

  /** The index of the first column called `name`, or `None` when there is none. */
  function Lookup(t: Table, name: string): (r: Option<nat>)
    ensures r.Some? ==> r.value < |t| && t[r.value].name == name
    ensures r.Some? ==> forall j :: 0 <= j < r.value ==> t[j].name != name
    ensures r.None? <==> forall j :: 0 <= j < |t| ==> t[j].name != name
  {
    LookupFrom(t, name, 0)
  }

  // ---------------------------------------------------------------------
  // registros_anidados
  // ---------------------------------------------------------------------

  /** A rendered cell looks like a nested record when it starts with `{` or `[{`. */
  predicate LooksNested(s: string) {
    Text.StartsWith(s, "[{") || Text.StartsWith(s, "{")
  }

  /** A list of scalars such as `[1, 2]` is not a nested record; a list of records is. */
  lemma LooksNestedCases(s: string)
    ensures LooksNested(s) <==> |s| >= 1 && (s[0] == '{' || (|s| >= 2 && s[0] == '[' && s[1] == '{'))
  {
  }

  /** Some cell of the column, rendered by `astype(str)`, looks nested. */
  predicate HasNestedCell(c: Column, render: Cell -> string) {
    exists i :: 0 <= i < |c.cells| && LooksNested(render(c.cells[i]))
  }

  /** Column names are pairwise distinct. */
  predicate DistinctNames(t: Table) {
    forall i, j :: 0 <= i < j < |t| ==> t[i].name != t[j].name
  }

  /** Two or more columns carry `name`, so `data[name]` is a frame rather than a column. */
  predicate NameRepeated(t: Table, name: string) {
    exists i, j :: 0 <= i < j < |t| && t[i].name == name && t[j].name == name
  }

  /** Distinct names repeat no name. */
  lemma DistinctNoRepeat(t: Table, name: string)
    requires DistinctNames(t)
    ensures !NameRepeated(t, name)
  {
  }

  /** With distinct names, `data[name]` finds the one column called `name`. */
  lemma LookupDistinct(t: Table, j: nat)
    requires DistinctNames(t) && j < |t|
    ensures Lookup(t, t[j].name) == Some(j)
  {
  }

  /**
   * The names of the columns from `k` on that hold a nested-looking cell, in
   * column order.
   */
  function NestedNamesFrom(t: Table, render: Cell -> string, k: nat): (r: seq<string>)
    requires k <= |t|
    ensures |r| <= |t| - k
    decreases |t| - k
  {
    if k == |t| then []
    else if HasNestedCell(t[k], render) then [t[k].name] + NestedNamesFrom(t, render, k + 1)
    else NestedNamesFrom(t, render, k + 1)
  }

  /** `name` is that of a column at `k` or later holding a nested-looking cell. */
  predicate NestedColumnFrom(t: Table, render: Cell -> string, k: nat, name: string) {
    exists j :: k <= j < |t| && t[j].name == name && HasNestedCell(t[j], render)
  }

  /** Every name found from `k` on is that of a flagged column at `k` or later. */
  lemma {:induction false} NestedNamesSound(t: Table, render: Cell -> string, k: nat)
    requires k <= |t|
    ensures forall m :: 0 <= m < |NestedNamesFrom(t, render, k)| ==>
      NestedColumnFrom(t, render, k, NestedNamesFrom(t, render, k)[m])
    decreases |t| - k
  {
    if k < |t| {
      NestedNamesSound(t, render, k + 1);
      var r, rest := NestedNamesFrom(t, render, k), NestedNamesFrom(t, render, k + 1);
      forall m | 0 <= m < |r|
        ensures NestedColumnFrom(t, render, k, r[m])
      {
        if HasNestedCell(t[k], render) && m == 0 {
          assert t[k].name == r[0];
        } else {
          var m' := if HasNestedCell(t[k], render) then m - 1 else m;
          assert r[m] == rest[m'] && NestedColumnFrom(t, render, k + 1, rest[m']);
        }
      }
    }
  }

  /** Every flagged column from `k` on has its name found. */
  lemma {:induction false} NestedNamesComplete(t: Table, render: Cell -> string, k: nat)
    requires k <= |t|
    ensures forall j :: k <= j < |t| && HasNestedCell(t[j], render) ==> t[j].name in NestedNamesFrom(t, render, k)
    decreases |t| - k
  {
    if k < |t| {
      NestedNamesComplete(t, render, k + 1);
    }
  }

  /** Each name is that of a column, and the columns come in increasing order. */
  predicate InColumnOrder(t: Table, names: seq<string>) {
    forall m, n :: 0 <= m < n < |names| ==>
      && Lookup(t, names[m]).Some? && Lookup(t, names[n]).Some?
      && Lookup(t, names[m]).value < Lookup(t, names[n]).value
  }

  /** With distinct names, every name found from `k` on is that of a column at `k` or later. */
  lemma NestedNamesLater(t: Table, render: Cell -> string, k: nat)
    requires k <= |t| && DistinctNames(t)
    ensures forall m :: 0 <= m < |NestedNamesFrom(t, render, k)| ==>
      && Lookup(t, NestedNamesFrom(t, render, k)[m]).Some?
      && k <= Lookup(t, NestedNamesFrom(t, render, k)[m]).value
  {
    var r := NestedNamesFrom(t, render, k);
    NestedNamesSound(t, render, k);
    forall m | 0 <= m < |r|
      ensures Lookup(t, r[m]).Some? && k <= Lookup(t, r[m]).value
    {
      assert NestedColumnFrom(t, render, k, r[m]);
      var j :| k <= j < |t| && t[j].name == r[m] && HasNestedCell(t[j], render);
      LookupDistinct(t, j);
    }
  }

  /** Column `k`'s name before names of later columns, in order, keeps column order. */
  lemma OrderedCons(t: Table, k: nat, rest: seq<string>)
    requires k < |t| && Lookup(t, t[k].name) == Some(k) && InColumnOrder(t, rest)
    requires forall m :: 0 <= m < |rest| ==> Lookup(t, rest[m]).Some? && k + 1 <= Lookup(t, rest[m]).value
    ensures InColumnOrder(t, [t[k].name] + rest)
  {
    var r := [t[k].name] + rest;
    forall m, n | 0 <= m < n < |r|
      ensures Lookup(t, r[m]).Some? && Lookup(t, r[n]).Some?
      ensures Lookup(t, r[m]).value < Lookup(t, r[n]).value
    {
      assert r[n] == rest[n - 1];
      if m > 0 {
        assert r[m] == rest[m - 1];
      }
    }
  }

  /** With distinct names, the names found come in the order of their columns. */
  lemma {:induction false} NestedNamesOrdered(t: Table, render: Cell -> string, k: nat)
    requires k <= |t| && DistinctNames(t)
    ensures InColumnOrder(t, NestedNamesFrom(t, render, k))
    decreases |t| - k
  {
    if k < |t| {
      NestedNamesOrdered(t, render, k + 1);
      var rest := NestedNamesFrom(t, render, k + 1);
      if HasNestedCell(t[k], render) {
        assert NestedNamesFrom(t, render, k) == [t[k].name] + rest;
        LookupDistinct(t, k);
        NestedNamesLater(t, render, k + 1);
        OrderedCons(t, k, rest);
      } else {
        assert NestedNamesFrom(t, render, k) == rest;
      }
    }
  }

  /**
   * `registros_anidados`: the names of the columns in which some cell's text
   * starts with `{` or `[{`, in column order. A repeated column name makes
   * `data[columna]` a frame, whose missing `.str` raises `AttributeError`.
   */
  function RegistrosAnidados(t: Table, render: Cell -> string): (r: Result<seq<string>, Error>)
    ensures r.Failure? <==> !DistinctNames(t)
    ensures r.Failure? ==> r.error == AttributeError
    ensures r.Success? ==> forall name :: name in r.value <==> NestedColumnFrom(t, render, 0, name)
    ensures r.Success? ==> InColumnOrder(t, r.value)
  {
    if !DistinctNames(t) then Failure(AttributeError)
    else
      NestedNamesSound(t, render, 0);
      NestedNamesComplete(t, render, 0);
      NestedNamesOrdered(t, render, 0);
      Success(NestedNamesFrom(t, render, 0))
  }

  /** Rendering that shows strings as themselves and every other cell as empty text. */
  function PlainText(c: Cell): string {
    if c.Str? then c.s else ""
  }

  /**
   * Column `a` holds a record-looking string and column `b` does not; two
   * columns called `a` fail.
   */
  lemma RegistrosAnidadosExample()
    ensures RegistrosAnidados([Column("a", [Str("{x:1}"), Str("plain")]),
                               Column("b", [Str("plain"), Str("plain")])], PlainText) == Success(["a"])
    ensures RegistrosAnidados([Column("a", [Str("{x:1}")]), Column("a", [Str("{x:1}")])], PlainText)
      == Failure(AttributeError)
  {
    var t := [Column("a", [Str("{x:1}"), Str("plain")]), Column("b", [Str("plain"), Str("plain")])];
    assert LooksNested(PlainText(t[0].cells[0]));
    assert HasNestedCell(t[0], PlainText);
    LooksNestedCases("plain");
    assert !HasNestedCell(t[1], PlainText);
    assert NestedNamesFrom(t, PlainText, 2) == [];
    assert NestedNamesFrom(t, PlainText, 1) == [];
    assert NestedNamesFrom(t, PlainText, 0) == ["a"];
    assert DistinctNames(t);
  }

  // ---------------------------------------------------------------------
  // filas_duplicadas
  // ---------------------------------------------------------------------

  /** Row `i` equals some earlier row (`duplicated()` keeping the first). */
  predicate IsRepeat(t: Table, i: nat)
    requires Rectangular(t) && i < Height(t)
  {
    exists j :: 0 <= j < i && Row(t, j) == Row(t, i)
  }

  /** The number of rows before `k` that repeat an earlier row. */
  function RepeatsBefore(t: Table, k: nat): (n: nat)
    requires Rectangular(t) && k <= Height(t)
    ensures n <= k
  {
    if k == 0 then 0 else RepeatsBefore(t, k - 1) + (if IsRepeat(t, k - 1) then 1 else 0)
  }

  /** The distinct rows among the first `k`. */
  function RowsBefore(t: Table, k: nat): (rows: set<seq<Cell>>)
    requires Rectangular(t) && k <= Height(t)
    ensures |rows| <= k
    ensures k >= 1 ==> |rows| >= 1
  {
    if k == 0 then {} else RowsBefore(t, k - 1) + {Row(t, k - 1)}
  }

  /** The distinct rows before `k` are exactly the rows `0 .. k - 1`. */
  lemma {:induction false} RowsBeforeMembers(t: Table, k: nat)
    requires Rectangular(t) && k <= Height(t)
    ensures forall j :: 0 <= j < k ==> Row(t, j) in RowsBefore(t, k)
    ensures forall x :: x in RowsBefore(t, k) ==> exists j :: 0 <= j < k && Row(t, j) == x
  {
    if k > 0 {
      RowsBeforeMembers(t, k - 1);
    }
  }

  /** Row `i` is a repeat exactly when it is among the distinct rows before it. */
  lemma RepeatIsSeen(t: Table, i: nat)
    requires Rectangular(t) && i < Height(t)
    ensures IsRepeat(t, i) <==> Row(t, i) in RowsBefore(t, i)
  {
    RowsBeforeMembers(t, i);
  }

  /** One more row either repeats (no new distinct row) or adds a distinct row. */
  lemma RowsBeforeStep(t: Table, k: nat)
    requires Rectangular(t) && k < Height(t)
    ensures IsRepeat(t, k) ==> |RowsBefore(t, k + 1)| == |RowsBefore(t, k)|
    ensures !IsRepeat(t, k) ==> |RowsBefore(t, k + 1)| == |RowsBefore(t, k)| + 1
  {
    RepeatIsSeen(t, k);
    assert RowsBefore(t, k + 1) == RowsBefore(t, k) + {Row(t, k)};
  }

  /** Among the first `k` rows, the repeated rows plus the distinct rows make `k`. */
  lemma {:induction false} RepeatsBeforeDistinct(t: Table, k: nat)
    requires Rectangular(t) && k <= Height(t)
    ensures RepeatsBefore(t, k) + |RowsBefore(t, k)| == k
  {
    if k > 0 {
      RepeatsBeforeDistinct(t, k - 1);
      RowsBeforeStep(t, k - 1);
    }
  }

  /**
   * `data.duplicated().sum()`: the row count less the number of distinct rows,
   * so 0 for at most one row and never more than rows - 1.
   */
  function DuplicateCount(t: Table): (n: nat)
    requires Rectangular(t)
    ensures n + |RowsBefore(t, Height(t))| == Height(t)
    ensures Height(t) <= 1 ==> n == 0
    ensures Height(t) >= 1 ==> n <= Height(t) - 1
  {
    RepeatsBeforeDistinct(t, Height(t));
    RepeatsBefore(t, Height(t))
  }

  /** The count is zero exactly when no row repeats an earlier one. */
  lemma {:induction false} RepeatsBeforeZero(t: Table, k: nat)
    requires Rectangular(t) && k <= Height(t)
    ensures RepeatsBefore(t, k) == 0 <==> forall i :: 0 <= i < k ==> !IsRepeat(t, i)
  {
    if k > 0 {
      RepeatsBeforeZero(t, k - 1);
    }
  }

  /** Every cell of the column can be hashed. */
  predicate AllHashable(cells: seq<Cell>) {
    forall i :: 0 <= i < |cells| ==> IsHashable(cells[i])
  }

  /** Every cell of every column called `name` can be hashed. */
  predicate LabelledHashable(t: Table, name: string) {
    forall j :: 0 <= j < |t| && t[j].name == name ==> AllHashable(t[j].cells)
  }

  /** Every cell of the frame can be hashed. */
  predicate TableHashable(t: Table) {
    forall j :: 0 <= j < |t| ==> AllHashable(t[j].cells)
  }

  /** After `i` rows the scan has remembered the distinct rows and counted the repeats. */
  predicate ScanState(t: Table, i: nat, seen: set<seq<Cell>>, n: nat)
    requires Rectangular(t) && i <= Height(t)
  {
    seen == RowsBefore(t, i) && n == RepeatsBefore(t, i)
  }

  /** One step of the scan: a row counts as a repeat exactly when it was seen before. */
  lemma ScanStep(t: Table, i: nat, seen: set<seq<Cell>>, n: nat)
    requires Rectangular(t) && i < Height(t) && ScanState(t, i, seen, n)
    ensures ScanState(t, i + 1, seen + {Row(t, i)}, n + (if Row(t, i) in seen then 1 else 0))
  {
    RepeatIsSeen(t, i);
  }

  /**
   * One pass over the rows, remembering the distinct rows seen so far: the
   * number of rows equal to an earlier one.
   */
  method ScanRows(t: Table) returns (n: nat)
    requires Rectangular(t)
    ensures n == RepeatsBefore(t, Height(t))
  {
    var seen: set<seq<Cell>> := {};
    n := 0;
    var i := 0;
    while i < Height(t)
      invariant i <= Height(t)
      invariant ScanState(t, i, seen, n)
    {
      var row := Row(t, i);
      ScanStep(t, i, seen, n);
      if row in seen {
        n := n + 1;
      }
      seen := seen + {row};
      i := i + 1;
    }
  }

  /**
   * `duplicated().sum()`. pandas hashes every cell first, so a list, dict or
   * set cell anywhere raises `TypeError`.
   */
  method CountDuplicates(t: Table) returns (r: Result<nat, Error>)
    requires Rectangular(t)
    ensures r.Failure? <==> !TableHashable(t)
    ensures r.Failure? ==> r.error == TypeError
    ensures r.Success? ==> r.value == RepeatsBefore(t, Height(t))
    ensures r.Success? ==> r.value + |RowsBefore(t, Height(t))| == Height(t)
  {
    if !TableHashable(t) {
      return Failure(TypeError);
    }
    var n := ScanRows(t);
    RepeatsBeforeDistinct(t, Height(t));
    r := Success(n);
  }

  const NoDuplicatesSentence := "El DataFrame no tiene filas duplicadas"

  /** The sentence `filas_duplicadas` returns for a count of `n` repeated rows. */
  function DuplicatesSentence(n: nat): (s: string)
    ensures s == NoDuplicatesSentence <==> n == 0
  {
    if n == 0 then NoDuplicatesSentence
    else
      var s := "El Dataframe tiene " + Text.NatToString(n) + " filas duplicadas";
      assert s[7] == 'f' && NoDuplicatesSentence[7] == 'F';
      s
  }

  /** Different counts give different sentences. */
  lemma DuplicatesSentenceInjective(a: nat, b: nat)
    ensures DuplicatesSentence(a) == DuplicatesSentence(b) ==> a == b
  {
    if DuplicatesSentence(a) == DuplicatesSentence(b) && a != 0 && b != 0 {
      Text.FramedInjective("El Dataframe tiene ", Text.NatToString(a), Text.NatToString(b), " filas duplicadas");
      Text.NatToStringInjective(a, b);
    }
  }

  /** `filas_duplicadas`. */
  method FilasDuplicadas(t: Table) returns (r: Result<string, Error>)
    requires Rectangular(t)
    ensures r.Failure? <==> !TableHashable(t)
    ensures r.Failure? ==> r.error == TypeError
    ensures r.Success? ==> r.value == DuplicatesSentence(DuplicateCount(t))
    ensures r.Success? ==>
      (r.value == NoDuplicatesSentence <==> forall i :: 0 <= i < Height(t) ==> !IsRepeat(t, i))
  {
    var count := CountDuplicates(t);
    match count
    case Failure(e) =>
      r := Failure(e);
    case Success(n) =>
      RepeatsBeforeZero(t, Height(t));
      r := Success(DuplicatesSentence(n));
  }

  // ---------------------------------------------------------------------
  // registros_unicos
  // ---------------------------------------------------------------------

  /** The number of non-null cells of a column. */
  function NonNullCount(cells: seq<Cell>): (n: nat)
    ensures n <= |cells|
  {
    if |cells| == 0 then 0
    else NonNullCount(cells[..|cells| - 1]) + (if IsNull(cells[|cells| - 1]) then 0 else 1)
  }

  /**
   * The distinct non-null values of a column, whose size is `nunique()`: at
   * most the number of non-null cells, and zero exactly when the column is
   * empty or all null.
   */
  function NonNullValues(cells: seq<Cell>): (vals: set<Cell>)
    ensures |vals| <= NonNullCount(cells)
    ensures |vals| == 0 <==> forall i :: 0 <= i < |cells| ==> IsNull(cells[i])
  {
    if |cells| == 0 then {}
    else
      var init, last := cells[..|cells| - 1], cells[|cells| - 1];
      var vals := NonNullValues(init) + (if IsNull(last) then {} else {last});
      assert !IsNull(last) ==> last in vals;
      assert forall i :: 0 <= i < |init| ==> init[i] == cells[i];
      vals
  }

  /** The values counted are exactly the non-null cells. */
  lemma {:induction false} NonNullValuesMembers(cells: seq<Cell>)
    ensures forall c :: c in NonNullValues(cells) <==> c in cells && !IsNull(c)
  {
    if |cells| > 0 {
      NonNullValuesMembers(cells[..|cells| - 1]);
      assert cells == cells[..|cells| - 1] + [cells[|cells| - 1]];
    }
  }

  /** Extending a column by one cell adds that cell's value unless it is null. */
  lemma NonNullValuesSnoc(cells: seq<Cell>, i: nat)
    requires i < |cells|
    ensures NonNullValues(cells[..i + 1])
      == NonNullValues(cells[..i]) + (if IsNull(cells[i]) then {} else {cells[i]})
  {
    assert cells[..i + 1][..i] == cells[..i];
  }

  /** The values 1, 1, 2 and a null have two unique records. */
  lemma UniqueExample()
    ensures |NonNullValues([Int(1), Int(1), Int(2), PyNone])| == 2
  {
    var cells := [Int(1), Int(1), Int(2), PyNone];
    assert cells[..0] == [];
    NonNullValuesSnoc(cells, 0);
    NonNullValuesSnoc(cells, 1);
    NonNullValuesSnoc(cells, 2);
    NonNullValuesSnoc(cells, 3);
    assert cells[..4] == cells;
    assert NonNullValues(cells) == {Int(1), Int(2)};
  }

  /** After `i` cells every cell was hashable and the scan holds their distinct non-null values. */
  predicate UniqueState(cells: seq<Cell>, i: nat, seen: set<Cell>)
    requires i <= |cells|
  {
    AllHashable(cells[..i]) && seen == NonNullValues(cells[..i])
  }

  /** One step of the scan over a hashable cell: a non-null value joins the set. */
  lemma UniqueStep(cells: seq<Cell>, i: nat, seen: set<Cell>)
    requires i < |cells| && UniqueState(cells, i, seen) && IsHashable(cells[i])
    ensures UniqueState(cells, i + 1, if IsNull(cells[i]) then seen else seen + {cells[i]})
  {
    NonNullValuesSnoc(cells, i);
  }

  /**
   * Counts the distinct non-null values in one pass. pandas hashes every cell,
   * so a list, dict or set cell raises `TypeError`.
   */
  method NUnique(cells: seq<Cell>) returns (r: Result<nat, Error>)
    ensures r.Failure? <==> !AllHashable(cells)
    ensures r.Failure? ==> r.error == TypeError
    ensures r.Success? ==> r.value == |NonNullValues(cells)|
    ensures r.Success? ==> r.value <= NonNullCount(cells)
  {
    var seen: set<Cell> := {};
    var i := 0;
    while i < |cells|
      invariant i <= |cells|
      invariant UniqueState(cells, i, seen)
    {
      if !IsHashable(cells[i]) {
        return Failure(TypeError);
      }
      UniqueStep(cells, i, seen);
      if !IsNull(cells[i]) {
        seen := seen + {cells[i]};
      }
      i := i + 1;
    }
    assert cells[..i] == cells;
    r := Success(|seen|);
  }

  /** The sentence `registros_unicos` returns for column `name` with `n` unique values. */
  function UniqueSentence(name: string, n: nat): (s: string)
    ensures s == "La columna " + name + " no tiene registros unicos" <==> n == 0
  {
    if n == 0 then "La columna " + name + " no tiene registros unicos"
    else
      var s := "La columna " + name + " tiene " + Text.NatToString(n) + " registros unicos";
      assert s[|"La columna " + name| + 1] == 't';
      assert ("La columna " + name + " no tiene registros unicos")[|"La columna " + name| + 1] == 'n';
      s
  }

  /** Different counts give different sentences for the same column. */
  lemma UniqueSentenceInjective(name: string, a: nat, b: nat)
    ensures UniqueSentence(name, a) == UniqueSentence(name, b) ==> a == b
  {
    if UniqueSentence(name, a) == UniqueSentence(name, b) && a != 0 && b != 0 {
      Text.FramedInjective("La columna " + name + " tiene ", Text.NatToString(a), Text.NatToString(b), " registros unicos");
      Text.NatToStringInjective(a, b);
    }
  }

  /**
   * `registros_unicos`: a missing column raises `KeyError`, an unhashable cell
   * `TypeError`. For a repeated name `nunique()` counts each column of the
   * frame `data[name]`, and `registros == 0` is then a series whose truth
   * value raises `ValueError`.
   */
  method RegistrosUnicos(t: Table, name: string) returns (r: Result<string, Error>)
    ensures Lookup(t, name).None? <==> r == Failure(KeyError(name))
    ensures Lookup(t, name).Some? && NameRepeated(t, name) ==>
      r == Failure(if LabelledHashable(t, name) then ValueError else TypeError)
    ensures Lookup(t, name).Some? && !NameRepeated(t, name) ==>
      var cells := t[Lookup(t, name).value].cells;
      && (r.Failure? <==> !AllHashable(cells))
      && (r.Failure? ==> r.error == TypeError)
      && (r.Success? ==> r.value == UniqueSentence(name, |NonNullValues(cells)|))
      && (r.Success? ==> (r.value == "La columna " + name + " no tiene registros unicos"
            <==> forall i :: 0 <= i < |cells| ==> IsNull(cells[i])))
  {
    match Lookup(t, name)
    case None =>
      r := Failure(KeyError(name));
    case Some(j) =>
      if NameRepeated(t, name) {
        return Failure(if LabelledHashable(t, name) then ValueError else TypeError);
      }
      var count := NUnique(t[j].cells);
      match count
      case Failure(e) =>
        r := Failure(e);
      case Success(n) =>
        r := Success(UniqueSentence(name, n));
  }

  // ---------------------------------------------------------------------
  // count_data_by_type
  // ---------------------------------------------------------------------

  /** The number of cells that are instances of `ty`. */
  function CountInstances(cells: seq<Cell>, ty: PyType): (n: nat)
    ensures n <= |cells|
    ensures ty == ObjectType ==> n == |cells|
  {
    if |cells| == 0 then 0
    else CountInstances(cells[..|cells| - 1], ty) + (if IsInstance(cells[|cells| - 1], ty) then 1 else 0)
  }

  /** The number of cells whose exact runtime type is `ty`. */
  function CountExactType(cells: seq<Cell>, ty: PyType): (n: nat)
    ensures n <= CountInstances(cells, ty)
  {
    if |cells| == 0 then 0
    else CountExactType(cells[..|cells| - 1], ty) + (if TypeOf(cells[|cells| - 1]) == ty then 1 else 0)
  }

  /**
   * Counting by `isinstance` counts every cell of the exact type, every cell of
   * a subclass counts under its superclass, and `object` counts them all.
   */
  lemma {:induction false} CountInstancesMonotone(cells: seq<Cell>, sub: PyType, sup: PyType)
    requires IsSubclass(sub, sup)
    ensures CountExactType(cells, sub) <= CountInstances(cells, sub) <= CountInstances(cells, sup)
    ensures CountInstances(cells, ObjectType) == |cells|
  {
    if |cells| > 0 {
      CountInstancesMonotone(cells[..|cells| - 1], sub, sup);
    }
  }

  /** `isinstance` is wider than exact type: a boolean counts as an `int`. */
  lemma BoolCountsAsInt()
    ensures CountInstances([Bool(true)], IntType) == 1
    ensures CountExactType([Bool(true)], IntType) == 0
  {
  }

  /**
   * A datetime64 column hands `apply` a `Timestamp` or `NaT` per row: asking
   * for `pd.Timestamp` counts the non-null rows, asking for `datetime` counts
   * every row, `NaT` included.
   */
  lemma {:induction false} DatetimeColumnCount(cells: seq<Cell>)
    requires forall i :: 0 <= i < |cells| ==> cells[i].NaT? || (cells[i].Stamp? && cells[i].pandas)
    ensures CountInstances(cells, TimestampType) == NonNullCount(cells)
    ensures CountInstances(cells, DateTimeType) == |cells|
  {
    if |cells| > 0 {
      DatetimeColumnCount(cells[..|cells| - 1]);
    }
  }

  /** The sentence `count_data_by_type` returns; it ends with the class name. */
  function CountByTypeSentence(name: string, n: nat, ty: PyType): (s: string)
    ensures Text.EndsWith(s, TypeName(ty))
  {
    "En la columna " + name + " del DataFrame hay " + Text.NatToString(n)
      + " de registros del tipo " + TypeName(ty)
  }

  /** Different counts give different sentences for the same column and class. */
  lemma CountByTypeSentenceInjective(name: string, a: nat, b: nat, ty: PyType)
    ensures CountByTypeSentence(name, a, ty) == CountByTypeSentence(name, b, ty) ==> a == b
  {
    var p := "En la columna " + name + " del DataFrame hay ";
    var q := " de registros del tipo " + TypeName(ty);
    assert CountByTypeSentence(name, a, ty) == p + Text.NatToString(a) + q;
    assert CountByTypeSentence(name, b, ty) == p + Text.NatToString(b) + q;
    if CountByTypeSentence(name, a, ty) == CountByTypeSentence(name, b, ty) {
      Text.FramedInjective(p, Text.NatToString(a), Text.NatToString(b), q);
      Text.NatToStringInjective(a, b);
    }
  }

  /** Counts the instances in one pass over the column. */
  method CountMatching(cells: seq<Cell>, ty: PyType) returns (n: nat)
    ensures n == CountInstances(cells, ty)
    ensures n <= |cells|
  {
    n := 0;
    var i := 0;
    while i < |cells|
      invariant i <= |cells|
      invariant n == CountInstances(cells[..i], ty)
    {
      assert cells[..i + 1][..i] == cells[..i];
      if IsInstance(cells[i], ty) {
        n := n + 1;
      }
      i := i + 1;
    }
    assert cells[..i] == cells;
  }

  /**
   * `count_data_by_type`: a missing column raises `KeyError`. For a repeated
   * name the mask is indexed by column names; `data.loc` cannot align it with
   * the rows and raises `IndexingError`, unless there are no rows to align.
   */
  method CountDataByType(t: Table, name: string, ty: PyType) returns (r: Result<string, Error>)
    ensures Lookup(t, name).None? <==> r == Failure(KeyError(name))
    ensures Lookup(t, name).Some? && NameRepeated(t, name) ==>
      r == (if Height(t) == 0 then Success(CountByTypeSentence(name, 0, ty)) else Failure(IndexingError))
    ensures Lookup(t, name).Some? && !NameRepeated(t, name) ==>
      r == Success(CountByTypeSentence(name, CountInstances(t[Lookup(t, name).value].cells, ty), ty))
  {
    match Lookup(t, name)
    case None =>
      r := Failure(KeyError(name));
    case Some(j) =>
      if NameRepeated(t, name) {
        return if Height(t) == 0 then Success(CountByTypeSentence(name, 0, ty)) else Failure(IndexingError);
      }
      var n := CountMatching(t[j].cells, ty);
      r := Success(CountByTypeSentence(name, n, ty));
  }

  // ---------------------------------------------------------------------
  // Null and "SD" counts behind porcentaje_nulos and calculate_percentage_of_sd
  // ---------------------------------------------------------------------

  /** The sentinel the data set uses for "sin dato"; compared case-sensitively. */
  const Sentinel := "SD"

  function NullCount(cells: seq<Cell>): (n: nat)
    ensures n <= |cells|
  {
    if |cells| == 0 then 0
    else NullCount(cells[..|cells| - 1]) + (if IsNull(cells[|cells| - 1]) then 1 else 0)
  }

  function SentinelCount(cells: seq<Cell>): (n: nat)
    ensures n <= |cells|
  {
    if |cells| == 0 then 0
    else SentinelCount(cells[..|cells| - 1]) + (if cells[|cells| - 1] == Str(Sentinel) then 1 else 0)
  }

  /**
   * Null and sentinel cells are disjoint, so together they are at most the
   * column; and the non-null cells are the rest.
   */
  lemma {:induction false} NullAndSentinelDisjoint(cells: seq<Cell>)
    ensures NullCount(cells) + SentinelCount(cells) <= |cells|
    ensures NullCount(cells) + NonNullCount(cells) == |cells|
  {
    if |cells| > 0 {
      NullAndSentinelDisjoint(cells[..|cells| - 1]);
    }
  }
}

=== FILE: text.dfy ===
/** Decimal rendering of counts, list joining and splitting, and prefix tests on strings. */
module Text {

  predicate IsDigit(c: char) {
    '0' <= c <= '9'
  }

  predicate AllDigits(s: string) {
    forall i :: 0 <= i < |s| ==> IsDigit(s[i])
  }

  function DigitValue(c: char): (d: nat)
    requires IsDigit(c)
    ensures d < 10
  {
    c as int - '0' as int
  }

  function DigitChar(d: nat): (c: char)
    requires d < 10
    ensures IsDigit(c) && DigitValue(c) == d
  {
    ('0' as int + d) as char
  }

  /** The decimal text of `n`, as an f-string renders an integer. */
  function NatToString(n: nat): (s: string)
    ensures |s| >= 1 && AllDigits(s)
    ensures s[0] == '0' ==> n == 0
    decreases n
  {
    if n < 10 then [DigitChar(n)] else NatToString(n / 10) + [DigitChar(n % 10)]
  }

  /** The number a string of decimal digits denotes. */
  function ParseNat(s: string): (n: nat)
    requires AllDigits(s)
    ensures |s| == 1 ==> n == DigitValue(s[0])
  {
    if |s| == 0 then 0 else ParseNat(s[..|s| - 1]) * 10 + DigitValue(s[|s| - 1])
  }

  /** Reading back a rendered count gives the count. */
  lemma {:induction false} ParseNatToString(n: nat)
    ensures ParseNat(NatToString(n)) == n
    decreases n
  {
    if n >= 10 {
      var s := NatToString(n);
      assert s[..|s| - 1] == NatToString(n / 10);
      ParseNatToString(n / 10);
    }
  }

  /** Distinct counts render as distinct texts. */
  lemma NatToStringInjective(a: nat, b: nat)
    requires NatToString(a) == NatToString(b)
    ensures a == b
  {
    ParseNatToString(a);
    ParseNatToString(b);
  }

  predicate StartsWith(s: string, prefix: string) {
    |prefix| <= |s| && s[..|prefix|] == prefix
  }

  predicate EndsWith(s: string, suffix: string) {
    |suffix| <= |s| && s[|s| - |suffix|..] == suffix
  }

  /**
   * `sep.join(xs)`. It is a helper of `Barrios.Enumerate`, which states what
   * the joined enumeration is; `JoinSplit` below shows `Split` undoes it.
   */
  function Join(xs: seq<string>, sep: string): (r: string)
    ensures |xs| >= 1 ==> StartsWith(r, xs[0])
  {
    if |xs| == 0 then ""
    else if |xs| == 1 then xs[0]
    else xs[0] + sep + Join(xs[1..], sep)
  }

  /** `s.split(sep)` for a one-character separator: the pieces between separators. */
  function Split(s: string, sep: char): (fs: seq<string>)
    ensures |fs| >= 1
    ensures forall i :: 0 <= i < |fs| ==> sep !in fs[i]
  {
    if |s| == 0 then [""]
    else
      var rest := Split(s[1..], sep);
      if s[0] == sep then [""] + rest
      else [[s[0]] + rest[0]] + rest[1..]
  }

  /** Joining the pieces with the separator gives the text back. */
  lemma {:induction false} JoinSplit(s: string, sep: char)
    ensures Join(Split(s, sep), [sep]) == s
  {
    if |s| > 0 {
      var rest := Split(s[1..], sep);
      JoinSplit(s[1..], sep);
      if s[0] == sep {
        assert Split(s, sep)[1..] == rest;
      } else if |rest| >= 2 {
        assert Split(s, sep)[1..] == rest[1..];
        assert Join(rest, [sep]) == rest[0] + [sep] + Join(rest[1..], [sep]);
      }
    }
  }

  /** A text without the separator is a single piece. */
  lemma {:induction false} SplitNone(x: string, sep: char)
    requires sep !in x
    ensures Split(x, sep) == [x]
  {
    if |x| > 0 {
      assert x[0] in x;
      SplitNone(x[1..], sep);
      assert [x[0]] + x[1..] == x;
    }
  }

  /** A separator-free text followed by the separator is the first piece. */
  lemma {:induction false} SplitAfter(x: string, sep: char, y: string)
    requires sep !in x
    ensures Split(x + [sep] + y, sep) == [x] + Split(y, sep)
  {
    if |x| == 0 {
      assert (x + [sep] + y)[1..] == y;
    } else {
      assert (x + [sep] + y)[1..] == x[1..] + [sep] + y;
      SplitAfter(x[1..], sep, y);
      assert [x[0]] + x[1..] == x;
    }
  }

  /** A text framed by a fixed prefix and suffix determines its middle. */
  lemma FramedInjective(p: string, x: string, y: string, q: string)
    requires p + x + q == p + y + q
    ensures x == y
  {
    var m := p + x + q;
    assert |x| == |y|;
    assert x == m[|p|..|p| + |x|];
    assert y == (p + y + q)[|p|..|p| + |y|];
  }
}

=== FILE: wrappers.dfy ===
/** Failure-carrying wrappers shared by the other modules. */
module Wrappers {

  /** An optional value: `None` where the source yields nothing. */
  datatype Option<+T> = None | Some(value: T)

  /** A value or the error the source would raise instead. */
  datatype Result<+T, +E> = Success(value: T) | Failure(error: E)
}
